=== FILE: README.md ===
# Exofinder core in Dafny

Exofinder is a small exoplanet-classification demo. It has two independent
pieces of logic. This project models both and proves properties about them.

- **The mock predictor** (`predict_dataframe`). It takes a table that may
  have an `snr` (signal-to-noise ratio) column and returns one label and one
  confidence per row.
  - Without the column, every row gets label 0 and confidence 0.5.
  - With the column, a row is labelled planet (1) exactly when its snr
    exceeds 100.
  - The snr is divided by 1000 and clipped to [0, 1], then halved. The result
    is added to 0.5 for a planet row or subtracted from 0.5 for a non-planet
    row, and finally clamped to [0.01, 0.99].
- **Training-data preparation** (the label and feature steps of the training
  script).
  - Each free-text disposition is upper-cased and looked up in a fixed
    six-entry vocabulary. CONFIRMED, CANDIDATE, PC and KP mean planet;
    FALSE POSITIVE and FP mean non-planet.
  - Rows without a label are dropped. The binary target is 1 for planet rows.
  - The features are the canonical five column names that the table has,
    kept in canonical order.
  - A table without a `disposition` column is an error. So is a non-empty
    table whose `disposition` column holds no string at all: that column is
    read as numeric, and upper-casing it raises.

Files:

- `common.dfy` (module `Common`): `Option`, `Result` and the 0/1 label type `Bit`.
- `predict.dfy` (module `Predict`): the mock predictor over an `SnrColumn`.
  The column is either `Absent(rowCount)` or `Present(values)`.
- `disposition.dfy` (module `Disposition`): ASCII upper-casing, the
  vocabulary and `Lookup`.
- `train.dfy` (module `Train`): row labelling and dropping, the target, the
  feature selection, the feature matrix, and the whole `Prepare` step.

Numbers are Dafny `real`s, so all arithmetic is exact. For example, the
usage example's "≈ 0.475" is exactly 0.475 here.

Verifying the predictor's contracts gives tighter ranges than the comments
in the predictor suggest:

- A non-planet row has snr ≤ 100, so its confidence lies in [0.45, 0.5],
  not in [0.0, 0.5]. The lower clamp at 0.01 therefore never applies.
- A planet row's confidence lies in (0.55, 0.99].
- The confidence reaches the 0.99 ceiling exactly when snr ≥ 980. The clamp
  changes the value only above 980; at 980 the unclamped value is already 0.99.

## Model

| member | source | states |
|---|---|---|
| `Predict.PredictDataframe` | src/predict.py:19-45 | One label and one confidence per row. Without an snr column, every label is 0 and every confidence is 0.5. Otherwise a label is 1 iff its row's snr > 100, and each confidence is `Confidence` of that row's snr. Every confidence is in [0.01, 0.99]. Label 1 rows have confidence ≥ 0.5 and label 0 rows ≤ 0.5 |
| `Predict.Label` | src/predict.py:25 | A row's label is 1 iff its snr > 100 (lifted to whole tables by `PredictDataframe`) |
| `Predict.Confidence` | src/predict.py:32-43 | The confidence is 0.5 + snr/2000 for 100 < snr ≤ 980, 0.5 − snr/2000 for 0 ≤ snr ≤ 100, and 0.5 for negative snr. It is always in [0.01, 0.99]: > 0.55 when snr > 100 and in [0.45, 0.5] otherwise. It equals the 0.99 ceiling iff snr ≥ 980 |
| `Predict.Scaled` | src/predict.py:32-33 | The scaled snr is always in [0, 1]. It is snr/1000 for snr in [0, 1000], 0 for snr ≤ 0 and 1 for snr ≥ 1000 |
| `Predict.Clip` | src/predict.py:33 | Clipping lands in [lo, hi]: a value below lo becomes lo, one above hi becomes hi, and a value is unchanged iff it already lies in [lo, hi] |
| `Predict.ConfidenceMonotoneForPlanets` | src/predict.py:36-43 | For two planet rows (snr > 100), a larger snr never gives a lower confidence |
| `Predict.ConfidenceAntitoneForNonPlanets` | src/predict.py:36-43 | For two non-planet rows (snr ≤ 100), a larger snr never gives a higher confidence |
| `Predict.TableConfidenceOrdered` | src/predict.py:25-43 | Within one table, rows that share a label are ordered by confidence as their snr values are: upwards for label 1 and downwards for label 0 |
| `Predict.SaturatesAtCeiling` | src/predict.py:32-43 | A row with snr ≥ 1000 gets label 1 and confidence exactly 0.99 |
| `Predict.PredictDataframeSplits` | src/predict.py:25-45 | Predicting a concatenated table equals concatenating the predictions of its parts, so each row's output depends only on its own snr |
| `Predict.WorkedExamples` | src/predict.py:65-68 | snr 50, 250 and 120 give (0, 0.475), (1, 0.625) and (1, 0.56) |
| `Disposition.Upper` | src/train.py:24 | Upper-casing keeps the length, maps each character independently and leaves no lower-case ASCII letter |
| `Disposition.UpperIdempotent` | src/train.py:24 | Upper-casing twice is the same as upper-casing once |
| `Disposition.Lookup` | src/train.py:16-24 | Upper-cases a disposition and looks it up in the six-entry vocabulary. It has no contract of its own; its behaviour is stated by `LookupVocabulary`, `LookupIgnoresCase` and `LookupOfUpper` |
| `Disposition.LookupVocabulary` | src/train.py:16-24 | After upper-casing, CONFIRMED, CANDIDATE, PC and KP map to planet and FALSE POSITIVE and FP map to non-planet. Every other string has no label |
| `Disposition.LookupIgnoresCase` | src/train.py:24 | Two dispositions that agree after upper-casing get the same label |
| `Disposition.LookupOfUpper` | src/train.py:24 | Upper-casing a disposition before lookup does not change its label |
| `Disposition.LookupConfirmedMixedCase` | src/train.py:16-24 | "Confirmed" maps to planet |
| `Disposition.LookupFalsePositiveMixedCase` | src/train.py:16-24 | "False Positive" maps to non-planet |
| `Disposition.LookupShortCodes` | src/train.py:16-24 | "pc" and "kp" map to planet and "fp" maps to non-planet |
| `Disposition.LookupUnknown` | src/train.py:16-24 | "Refuted" is outside the vocabulary and has no label |
| `Train.RowLabel` | src/train.py:24 | A row whose disposition cell is missing (NaN after `.str.upper()`) has no label. Which label a present cell gets is stated by `RowLabelInVocabulary` |
| `Train.RowLabelInVocabulary` | src/train.py:16-25 | A row has a label (and so survives the drop) iff its disposition is present and its upper-cased form is one of CONFIRMED, CANDIDATE, PC, KP, FALSE POSITIVE, FP. Its label is planet iff that form is CONFIRMED, CANDIDATE, PC or KP, and non-planet iff it is FALSE POSITIVE or FP |
| `Train.DropUnlabelled` | src/train.py:24-25 | Dropping keeps at most the input rows, and every kept row carries the label its disposition maps to |
| `Train.DropUnlabelledWitness` | src/train.py:24-25 | The kept rows are exactly the input rows whose disposition maps to a label, in their original order. A witness index sequence is strictly increasing and contains every labelled position and no other, so a row with a missing disposition is never kept. Proved by induction on the table |
| `Train.AllKnownNoneDropped` | src/train.py:24-25 | When every disposition is in the vocabulary, no row is dropped and the rows come out unchanged and in order |
| `Train.Target` | src/train.py:31 | One target value per kept row: 1 exactly for planet rows and 0 exactly for non-planet rows |
| `Train.FilterPresent` | src/train.py:28 | The result holds exactly the names that are also columns. It is a subsequence of the names, and it has no duplicates when the names have none |
| `Train.SelectFeatures` | src/train.py:27-28 | The features are exactly the canonical names present among the columns, as a duplicate-free subsequence of the canonical order |
| `Train.Project` | src/train.py:30 | A feature-matrix row has exactly the selected features that the row has a cell for, with that cell's value |
| `Train.Prepare` | src/train.py:16-31 | Fails iff the table has no disposition column (missing-column error) or is non-empty with no string in that column (not-text error). Otherwise it keeps exactly `DropUnlabelled`'s rows and selects `SelectFeatures`' columns. Each kept row yields one feature row, its `Project` onto the selected features, and one target value from `Target`, which is 1 iff the row's disposition maps to planet |

## Left out

- NaN and infinite snr values, and floating-point rounding, are not modelled. snr is an exact real. (In NumPy, a NaN snr gives label 0 and a NaN confidence, which the final clip does not repair.)
- The column's type is not represented directly; it is inferred from its cells. A cell is `None` when it is missing or holds a non-string value. A non-empty column with no string cell is treated as numeric, so upper-casing it raises `AttributeError`. A column with at least one string cell is treated as text. Parsing CSV text into numbers is the caller's job: a column whose every value parses as a number must be given as all-`None` cells.
- Upper-casing is ASCII-only (a–z to A–Z). Python's full Unicode `str.upper()` is not modelled.
- Missing numeric cells are left out of a row's cell map. Pandas would hold NaN there, which the imputer fills later.
- Duplicate column names (which pandas renames) are not modelled. The columns are a plain sequence of names.
- The train/test split, median imputation, standardisation, the random-forest classifier and the classification report are library calls whose internals are not visible here.
- Reading the CSV file, the printed warning and report, creating the model directory, and saving the fitted pipeline are I/O.
- `src/app.py` (routes, templates, upload checks, session handling) is web-framework glue with no logic to prove.

=== FILE: common.dfy ===
/** Small shared vocabulary: optional values, results with an error side,
    and the 0/1 class label both flows produce. */
module Common {

  /** A value that may be missing: a missing table cell, an unmapped label. */
  datatype Option<+T> = None | Some(value: T)

  /** The outcome of an operation that can fail with an error value. */
  datatype Result<+R, +E> = Success(value: R) | Failure(error: E)

  /** A binary class label: 1 = planet, 0 = non-planet. */
  type Bit = b: int | 0 <= b <= 1
}

=== FILE: disposition.dfy ===
/** Mapping of free-text disposition strings to the planet / non-planet
    label: the string is upper-cased and looked up in a fixed six-entry
    vocabulary. */
module Disposition {
  import opened Common

  /** The two values the vocabulary maps to ("planet", "non-planet"). */
  datatype Label = Planet | NonPlanet

  /** ASCII upper-casing of one character. */
  function UpperChar(c: char): (u: char)
  {
    if 'a' <= c <= 'z' then (c as int - 32) as char else c
  }

  /** ASCII upper-casing of a string, character by character. */
  function Upper(s: string): (u: string)
    ensures |u| == |s|
    ensures forall i :: 0 <= i < |s| ==> u[i] == UpperChar(s[i])
    ensures forall i :: 0 <= i < |u| ==> !('a' <= u[i] <= 'z')
  {
    seq(|s|, i requires 0 <= i < |s| => UpperChar(s[i]))
  }

  /** Upper-casing twice is upper-casing once. */
  lemma UpperIdempotent(s: string)
    ensures Upper(Upper(s)) == Upper(s)
  {
    var u := Upper(s);
    assert forall i :: 0 <= i < |u| ==> UpperChar(u[i]) == u[i];
  }

  /** The fixed vocabulary, keyed by upper-case spelling. */
  const Vocabulary: map<string, Label> := map[
    "CONFIRMED" := Planet,
    "CANDIDATE" := Planet,
    "PC" := Planet,
    "KP" := Planet,
    "FALSE POSITIVE" := NonPlanet,
    "FP" := NonPlanet
  ]

  /** The spellings (after upper-casing) that mean planet and non-planet. */
  const PlanetSpellings: set<string> := {"CONFIRMED", "CANDIDATE", "PC", "KP"}
  const NonPlanetSpellings: set<string> := {"FALSE POSITIVE", "FP"}

  /** The label of one disposition string, or None when it is not in the vocabulary. */
  function Lookup(disposition: string): Option<Label>
  {
    var key := Upper(disposition);
    if key in Vocabulary then Some(Vocabulary[key]) else None
  }

  /** After upper-casing, the four planet spellings map to Planet, the two
      non-planet spellings to NonPlanet, and everything else to nothing. */
  lemma LookupVocabulary(disposition: string)
    ensures Lookup(disposition) == Some(Planet) <==> Upper(disposition) in PlanetSpellings
    ensures Lookup(disposition) == Some(NonPlanet) <==> Upper(disposition) in NonPlanetSpellings
    ensures Lookup(disposition) == None <==> Upper(disposition) !in PlanetSpellings + NonPlanetSpellings
  {
  }

  /** Lookup ignores case: two strings that agree after upper-casing get the same label. */
  lemma LookupIgnoresCase(a: string, b: string)
    requires Upper(a) == Upper(b)
    ensures Lookup(a) == Lookup(b)
  {
  }

  /** Upper-casing a disposition first does not change its label. */
  lemma LookupOfUpper(s: string)
    ensures Lookup(Upper(s)) == Lookup(s)
  {
    UpperIdempotent(s);
  }

  /** A mixed-case spelling of a planet entry. */
  lemma LookupConfirmedMixedCase()
    ensures Lookup("Confirmed") == Some(Planet)
  {
    assert Upper("Confirmed") == "CONFIRMED";
  }

  /** A mixed-case spelling of the two-word non-planet entry. */
  lemma LookupFalsePositiveMixedCase()
    ensures Lookup("False Positive") == Some(NonPlanet)
  {
    assert Upper("False Positive") == "FALSE POSITIVE";
  }

  /** Lower-case short codes map like their upper-case forms. */
  lemma LookupShortCodes()
    ensures Lookup("pc") == Some(Planet)
    ensures Lookup("kp") == Some(Planet)
    ensures Lookup("fp") == Some(NonPlanet)
  {
    assert Upper("pc") == "PC";
    assert Upper("kp") == "KP";
    assert Upper("fp") == "FP";
  }

  /** A disposition outside the vocabulary has no label. */
  lemma LookupUnknown()
    ensures Lookup("Refuted") == None
  {
    assert Upper("Refuted") == "REFUTED";
  }
}

=== FILE: predict.dfy ===
/** The mock SNR predictor: a threshold on the signal-to-noise ratio gives the
    label, and a clipped linear rescaling of the same value gives the
    confidence in that label. */
module Predict {
  import opened Common

  /** Rows whose snr exceeds this value are labelled planet. */
  const Threshold: real := 100.0
  /** The ceiling the snr is divided by before clipping to [0, 1]. */
  const MaxSnr: real := 1000.0
  /** Confidence returned when no snr is available. */
  const Uncertain: real := 0.5
  /** Final confidences are clamped to [MinConfidence, MaxConfidence]. */
  const MinConfidence: real := 0.01
  const MaxConfidence: real := 0.99

  /** The snr column of the input table: either absent, when only the number
      of rows is known, or present with one value per row. */
  datatype SnrColumn = Absent(rowCount: nat) | Present(values: seq<real>)
  {
    function Rows(): nat {
      match this
      case Absent(n) => n
      case Present(v) => |v|
    }
  }

  /** The two parallel arrays the predictor returns. */
  datatype Output = Output(labels: seq<Bit>, confidences: seq<real>)

  /** Clamp `x` into [lo, hi]: a value below goes to lo, one above to hi,
      and the value is kept exactly when it is already inside. */
  function Clip(x: real, lo: real, hi: real): (r: real)
    requires lo <= hi
    ensures lo <= r <= hi
    ensures r == x <==> lo <= x <= hi
    ensures x < lo ==> r == lo
    ensures x > hi ==> r == hi
  {
    if x < lo then lo else if x > hi then hi else x
  }

  /** The label of one row: planet exactly above the threshold. */
  function Label(snr: real): (b: Bit)
    ensures b == 1 <==> snr > Threshold
  {
    if snr > Threshold then 1 else 0
  }

  /** The snr rescaled into [0, 1]. */
  function Scaled(snr: real): (s: real)
    ensures 0.0 <= s <= 1.0
    ensures 0.0 <= snr <= MaxSnr ==> s * MaxSnr == snr
    ensures snr <= 0.0 ==> s == 0.0
    ensures snr >= MaxSnr ==> s == 1.0
  {
    Clip(snr / MaxSnr, 0.0, 1.0)
  }

  /** The confidence in the predicted label of one row. Because a non-planet
      row has snr at most 100, its confidence never falls below 0.45, so the
      lower clamp never applies; the confidence reaches the 0.99 ceiling
      exactly when snr is at least 980. */
  function Confidence(snr: real): (c: real)
    ensures MinConfidence <= c <= MaxConfidence
    ensures snr > Threshold ==> 0.55 < c
    ensures snr <= Threshold ==> 0.45 <= c <= Uncertain
    ensures c == MaxConfidence <==> snr >= 980.0
    ensures Threshold < snr <= 980.0 ==> c == Uncertain + snr / (2.0 * MaxSnr)
    ensures 0.0 <= snr <= Threshold ==> c == Uncertain - snr / (2.0 * MaxSnr)
    ensures snr < 0.0 ==> c == Uncertain
  {
    var s := Scaled(snr);
    var raw := if Label(snr) == 1 then Uncertain + s / 2.0 else Uncertain - s / 2.0;
    Clip(raw, MinConfidence, MaxConfidence)
  }

  /** The predictor applied to a whole table. */
  function PredictDataframe(col: SnrColumn): (out: Output)
    ensures |out.labels| == col.Rows() && |out.confidences| == col.Rows()
    ensures col.Absent? ==>
              forall i :: 0 <= i < col.Rows() ==> out.labels[i] == 0 && out.confidences[i] == Uncertain
    ensures col.Present? ==>
              forall i :: 0 <= i < |col.values| ==> (out.labels[i] == 1 <==> col.values[i] > Threshold)
    ensures col.Present? ==>
              forall i :: 0 <= i < |col.values| ==> out.confidences[i] == Confidence(col.values[i])
    ensures forall i :: 0 <= i < |out.confidences| ==> MinConfidence <= out.confidences[i] <= MaxConfidence
    ensures forall i :: 0 <= i < |out.labels| && out.labels[i] == 1 ==> out.confidences[i] >= Uncertain
    ensures forall i :: 0 <= i < |out.labels| && out.labels[i] == 0 ==> out.confidences[i] <= Uncertain
  {
    match col
    case Absent(n) =>
      Output(seq(n, _ => 0), seq(n, _ => Uncertain))
    case Present(v) =>
      Output(seq(|v|, i requires 0 <= i < |v| => Label(v[i])),
             seq(|v|, i requires 0 <= i < |v| => Confidence(v[i])))
  }

  /** Among planet rows, a larger snr never lowers the confidence. */
  lemma ConfidenceMonotoneForPlanets(a: real, b: real)
    requires Threshold < a <= b
    ensures Confidence(a) <= Confidence(b)
  {
  }

  /** Among non-planet rows, a larger snr never raises the confidence. */
  lemma ConfidenceAntitoneForNonPlanets(a: real, b: real)
    requires a <= b <= Threshold
    ensures Confidence(a) >= Confidence(b)
  {
  }

  /** Monotonicity over a whole table: rows with the same label are ordered
      by confidence as their snr values are (upwards for planets, downwards
      for non-planets). */
  lemma TableConfidenceOrdered(v: seq<real>)
    ensures var out := PredictDataframe(Present(v));
      forall i, j :: 0 <= i < |v| && 0 <= j < |v| && v[i] <= v[j] ==>
        (out.labels[i] == 1 && out.labels[j] == 1 ==> out.confidences[i] <= out.confidences[j]) &&
        (out.labels[i] == 0 && out.labels[j] == 0 ==> out.confidences[i] >= out.confidences[j])
  {
    var out := PredictDataframe(Present(v));
    forall i, j | 0 <= i < |v| && 0 <= j < |v| && v[i] <= v[j]
      ensures out.labels[i] == 1 && out.labels[j] == 1 ==> out.confidences[i] <= out.confidences[j]
      ensures out.labels[i] == 0 && out.labels[j] == 0 ==> out.confidences[i] >= out.confidences[j]
    {
      if out.labels[i] == 1 && out.labels[j] == 1 {
        ConfidenceMonotoneForPlanets(v[i], v[j]);
      }
      if out.labels[i] == 0 && out.labels[j] == 0 {
        ConfidenceAntitoneForNonPlanets(v[i], v[j]);
      }
    }
  }

  /** Saturation at the top: a row whose snr reaches the scaling ceiling is a
      planet with the maximal confidence 0.99. */
  lemma SaturatesAtCeiling(v: seq<real>, i: nat)
    requires i < |v| && v[i] >= MaxSnr
    ensures PredictDataframe(Present(v)).labels[i] == 1
    ensures PredictDataframe(Present(v)).confidences[i] == MaxConfidence
  {
  }

  /** Each row's output depends only on that row's snr: predicting a table
      is the same as predicting its two halves and concatenating. */
  lemma {:induction false} PredictDataframeSplits(v1: seq<real>, v2: seq<real>)
    ensures var whole := PredictDataframe(Present(v1 + v2));
            var left := PredictDataframe(Present(v1));
            var right := PredictDataframe(Present(v2));
            whole.labels == left.labels + right.labels &&
            whole.confidences == left.confidences + right.confidences
  {
    var whole := PredictDataframe(Present(v1 + v2));
    var left := PredictDataframe(Present(v1));
    var right := PredictDataframe(Present(v2));
    assert whole.labels == left.labels + right.labels by {
      forall k | 0 <= k < |v1 + v2|
        ensures whole.labels[k] == (left.labels + right.labels)[k]
      {
        if k < |v1| {
          assert (v1 + v2)[k] == v1[k];
        } else {
          assert (v1 + v2)[k] == v2[k - |v1|];
        }
      }
    }
    assert whole.confidences == left.confidences + right.confidences by {
      forall k | 0 <= k < |v1 + v2|
        ensures whole.confidences[k] == (left.confidences + right.confidences)[k]
      {
        if k < |v1| {
          assert (v1 + v2)[k] == v1[k];
        } else {
          assert (v1 + v2)[k] == v2[k - |v1|];
        }
      }
    }
  }

  /** The three rows of the predictor's own usage example. */
  lemma WorkedExamples()
    ensures PredictDataframe(Present([50.0, 250.0, 120.0])) == Output([0, 1, 1], [0.475, 0.625, 0.56])
  {
    var out := PredictDataframe(Present([50.0, 250.0, 120.0]));
    assert out.labels == [0, 1, 1];
    assert out.confidences == [0.475, 0.625, 0.56];
  }
}

=== FILE: train.dfy ===
/** Preparation of the training table: every row's disposition is mapped to a
    label, rows without a label are dropped, the binary target is derived
    from the label, and the feature columns are the canonical five that the
    table actually has. */
module Train {
  import opened Common
  import opened Disposition

  /** The column holding the free-text disposition. */
  const DispositionColumn: string := "disposition"

  /** The canonical feature columns, in the order the model uses them. */
  const Canonical: seq<string> :=
    ["orbital_period", "transit_duration", "planet_radius", "transit_depth", "snr"]

  /** One row of the training table: its disposition cell (None when the
      cell is missing or holds a value that is not a string) and the
      numeric cells it has. */
  datatype Row = Row(disposition: Option<string>, cells: map<string, real>)

  /** The training table: its column names and its rows. */
  datatype Table = Table(columns: seq<string>, rows: seq<Row>)

  /** A retained row together with its label. */
  datatype Labelled = Labelled(row: Row, category: Label)

  /** What the preparation hands to the train/test split: the retained rows,
      the selected feature names, the feature matrix and the target. */
  datatype Prepared = Prepared(kept: seq<Labelled>, features: seq<string>,
                               x: seq<map<string, real>>, y: seq<Bit>)

  /** Why preparation stops: the disposition column is absent, or it holds
      no string at all, so it is not a text column and cannot be upper-cased. */
  datatype Error = MissingColumn(name: string) | NotText(name: string)

  /** The label of one row; a missing disposition has none. */
  function RowLabel(r: Row): (l: Option<Label>)
    ensures r.disposition.None? ==> l.None?
  {
    match r.disposition
    case None => None
    case Some(d) => Lookup(d)
  }

  /** Labelling followed by dropping the rows whose label is missing. */
  function DropUnlabelled(rows: seq<Row>): (kept: seq<Labelled>)
    ensures |kept| <= |rows|
    ensures forall k :: 0 <= k < |kept| ==> RowLabel(kept[k].row) == Some(kept[k].category)
    ensures forall k :: 0 <= k < |kept| ==> kept[k].row in rows
  {
    if rows == [] then []
    else
      var init := DropUnlabelled(rows[..|rows| - 1]);
      var last := rows[|rows| - 1];
      match RowLabel(last)
      case None => init
      case Some(l) => init + [Labelled(last, l)]
  }

  /** `kept` is exactly the labelled rows of `rows`, in their original order:
      `idx` gives the position in `rows` of each retained row. */
  ghost predicate RetainedExactly(rows: seq<Row>, kept: seq<Labelled>, idx: seq<nat>)
  {
    && |idx| == |kept|
    && (forall k :: 0 <= k < |idx| ==> idx[k] < |rows|)
    && (forall k :: 0 <= k < |idx| ==>
          kept[k].row == rows[idx[k]] && RowLabel(rows[idx[k]]) == Some(kept[k].category))
    && (forall k, m :: 0 <= k < m < |idx| ==> idx[k] < idx[m])
    && (forall i :: 0 <= i < |rows| ==> (RowLabel(rows[i]).Some? <==> i in idx))
  }

  /** In the vocabulary's terms: a row has a label exactly when its
      disposition is present and its upper-cased form is one of the six
      spellings, and that label is Planet for the four planet spellings and
      NonPlanet for the two non-planet ones. */
  lemma RowLabelInVocabulary(r: Row)
    ensures RowLabel(r).Some? <==>
              r.disposition.Some? && Upper(r.disposition.value) in PlanetSpellings + NonPlanetSpellings
    ensures RowLabel(r) == Some(Planet) <==>
              r.disposition.Some? && Upper(r.disposition.value) in PlanetSpellings
    ensures RowLabel(r) == Some(NonPlanet) <==>
              r.disposition.Some? && Upper(r.disposition.value) in NonPlanetSpellings
  {
    if r.disposition.Some? {
      LookupVocabulary(r.disposition.value);
    }
  }

  /** Appending one row to the table extends the retention witness: an
      unlabelled row leaves it as it is, a labelled one adds its position. */
  lemma RetainedExactlySnoc(rows: seq<Row>, kept: seq<Labelled>, idx: seq<nat>, r: Row)
    requires RetainedExactly(rows, kept, idx)
    ensures RowLabel(r).None? ==> RetainedExactly(rows + [r], kept, idx)
    ensures RowLabel(r).Some? ==>
              RetainedExactly(rows + [r], kept + [Labelled(r, RowLabel(r).value)], idx + [|rows|])
  {
    var rows' := rows + [r];
    assert forall i :: 0 <= i < |rows| ==> rows'[i] == rows[i];
    if RowLabel(r).Some? {
      var kept' := kept + [Labelled(r, RowLabel(r).value)];
      var idx' := idx + [|rows|];
      forall k | 0 <= k < |idx'|
        ensures idx'[k] < |rows'|
        ensures kept'[k].row == rows'[idx'[k]] && RowLabel(rows'[idx'[k]]) == Some(kept'[k].category)
      {
        if k < |idx| {
          assert idx'[k] == idx[k] && kept'[k] == kept[k];
        }
      }
      forall i | 0 <= i < |rows'|
        ensures RowLabel(rows'[i]).Some? <==> i in idx'
      {
        if i < |rows| {
          assert i in idx' <==> i in idx;
        }
      }
    } else {
      forall i | 0 <= i < |rows'|
        ensures RowLabel(rows'[i]).Some? <==> i in idx
      {
        if i == |rows| {
          assert i !in idx;
        }
      }
    }
  }

  /** Dropping on a table extended by one row: the row is appended to the
      result exactly when it has a label. */
  lemma DropUnlabelledSnoc(rows: seq<Row>, r: Row)
    ensures RowLabel(r).None? ==> DropUnlabelled(rows + [r]) == DropUnlabelled(rows)
    ensures RowLabel(r).Some? ==>
              DropUnlabelled(rows + [r]) == DropUnlabelled(rows) + [Labelled(r, RowLabel(r).value)]
  {
    assert (rows + [r])[..|rows|] == rows;
  }

  /** A row is retained exactly when it has a label (by `RowLabelInVocabulary`,
      when its upper-cased disposition is in the vocabulary), and retained
      rows keep their relative order; in particular a row with a missing
      disposition is never retained. */
  lemma {:induction false} DropUnlabelledWitness(rows: seq<Row>) returns (idx: seq<nat>)
    ensures RetainedExactly(rows, DropUnlabelled(rows), idx)
    ensures forall i :: 0 <= i < |rows| && rows[i].disposition.None? ==> i !in idx
  {
    if rows == [] {
      idx := [];
    } else {
      var n := |rows| - 1;
      var init := rows[..n];
      var last := rows[n];
      var idx0 := DropUnlabelledWitness(init);
      assert rows == init + [last];
      RetainedExactlySnoc(init, DropUnlabelled(init), idx0, last);
      DropUnlabelledSnoc(init, last);
      idx := if RowLabel(last).Some? then idx0 + [n] else idx0;
    }
  }

  /** When every disposition is in the vocabulary, no row is dropped and the
      rows come out unchanged and in order. */
  lemma {:induction false} AllKnownNoneDropped(rows: seq<Row>)
    requires forall i :: 0 <= i < |rows| ==> RowLabel(rows[i]).Some?
    ensures |DropUnlabelled(rows)| == |rows|
    ensures forall k :: 0 <= k < |rows| ==> DropUnlabelled(rows)[k].row == rows[k]
  {
    if rows != [] {
      var n := |rows| - 1;
      var init := rows[..n];
      assert forall i :: 0 <= i < n ==> init[i] == rows[i];
      AllKnownNoneDropped(init);
      var last := rows[n];
      assert rows == init + [last];
      DropUnlabelledSnoc(init, last);
      var prefix := DropUnlabelled(init);
      var kept := DropUnlabelled(rows);
      forall k | 0 <= k < |rows|
        ensures kept[k].row == rows[k]
      {
        if k < n {
          assert kept[k] == prefix[k];
        }
      }
    }
  }

  /** The binary target: 1 for planet rows, 0 for non-planet rows. */
  function Target(kept: seq<Labelled>): (y: seq<Bit>)
    ensures |y| == |kept|
    ensures forall k :: 0 <= k < |kept| ==> (y[k] == 1 <==> kept[k].category == Planet)
    ensures forall k :: 0 <= k < |kept| ==> (y[k] == 0 <==> kept[k].category == NonPlanet)
  {
    seq(|kept|, k requires 0 <= k < |kept| => if kept[k].category == Planet then 1 else 0)
  }

  /** `a` can be obtained from `b` by deleting elements. */
  predicate IsSubsequence(a: seq<string>, b: seq<string>)
  {
    a == [] || (b != [] && ((a[0] == b[0] && IsSubsequence(a[1..], b[1..])) || IsSubsequence(a, b[1..])))
  }

  predicate NoDuplicates(s: seq<string>)
  {
    forall i, j :: 0 <= i < j < |s| ==> s[i] != s[j]
  }

  /** The names of `names` that are among `columns`, in the order of `names`. */
  function FilterPresent(names: seq<string>, columns: seq<string>): (fs: seq<string>)
    ensures forall f :: f in fs <==> f in names && f in columns
    ensures IsSubsequence(fs, names)
    ensures NoDuplicates(names) ==> NoDuplicates(fs)
  {
    if names == [] then []
    else
      var rest := FilterPresent(names[1..], columns);
      if names[0] in columns then
        assert NoDuplicates(names) ==> names[0] !in names[1..];
        [names[0]] + rest
      else
        rest
  }

  /** The feature columns used for training: the canonical names present in
      the table, in canonical order, each once. */
  function SelectFeatures(columns: seq<string>): (fs: seq<string>)
    ensures forall f :: f in fs <==> f in Canonical && f in columns
    ensures IsSubsequence(fs, Canonical)
    ensures NoDuplicates(fs)
  {
    FilterPresent(Canonical, columns)
  }

  /** One row of the feature matrix: the row's cells restricted to the
      selected features. */
  function Project(row: Row, features: seq<string>): (x: map<string, real>)
    ensures forall f :: f in x <==> f in features && f in row.cells
    ensures forall f :: f in x ==> x[f] == row.cells[f]
  {
    map f | f in row.cells && f in features :: row.cells[f]
  }

  /** Some row of the table has a string in its disposition cell. */
  predicate HasTextCell(rows: seq<Row>)
  {
    exists i | 0 <= i < |rows| :: rows[i].disposition.Some?
  }

  /** The whole preparation step. A table without a disposition column is
      an error, and so is a non-empty table whose disposition column holds
      no string (it is then read as a numeric column, which has no string
      methods); otherwise the result holds one feature row and one target
      value per retained row. */
  function Prepare(t: Table): (r: Result<Prepared, Error>)
    ensures r.Failure? <==>
              DispositionColumn !in t.columns || (t.rows != [] && !HasTextCell(t.rows))
    ensures DispositionColumn !in t.columns ==> r == Failure(MissingColumn(DispositionColumn))
    ensures DispositionColumn in t.columns && t.rows != [] && !HasTextCell(t.rows) ==>
              r == Failure(NotText(DispositionColumn))
    ensures r.Success? ==>
              && r.value.kept == DropUnlabelled(t.rows)
              && |r.value.x| == |r.value.kept| && |r.value.y| == |r.value.kept|
              && r.value.features == SelectFeatures(t.columns)
    ensures r.Success? ==>
              forall k :: 0 <= k < |r.value.kept| ==>
                (r.value.y[k] == 1 <==> RowLabel(r.value.kept[k].row) == Some(Planet))
    ensures r.Success? ==>
              forall k :: 0 <= k < |r.value.kept| ==>
                r.value.x[k] == Project(r.value.kept[k].row, r.value.features)
    ensures r.Success? ==> r.value.y == Target(r.value.kept)
  {
    if DispositionColumn !in t.columns then
      Failure(MissingColumn(DispositionColumn))
    else if t.rows != [] && !HasTextCell(t.rows) then
      Failure(NotText(DispositionColumn))
    else
      var kept := DropUnlabelled(t.rows);
      var features := SelectFeatures(t.columns);
      var x := seq(|kept|, k requires 0 <= k < |kept| => Project(kept[k].row, features));
      Success(Prepared(kept, features, x, Target(kept)))
  }
}
